=== FILE: README.md ===
# A model of the p2p index registry and peer agent

This project models the core of a small peer-to-peer file-sharing overlay on
a local network. One peer becomes the **index** by itself. It keeps a
registry (`DHT`) from peer address to that peer's published file listing.
Other peers register by broadcast, retrieve the registry, look up one peer's
listing, unregister, and pull files one connection per name (`sync`).

The model has six modules, one concern each:

- `Wrappers`: `Option`, which stands for Java's nullable reference.
- `Text`: Java's `String.split` with a one-character delimiter. It gives the
  pieces between delimiters, drops trailing empty pieces, and returns the
  whole string when there is no delimiter.
- `Net`: a peer address is 4 bytes. The module has the dotted-decimal text
  (`InetAddress.toString` for an address without a host name), the literal
  part of `InetAddress.getByName`, and the subnet broadcast address, built by
  overwriting the last byte of a byte-array copy.
- `Listing`: the listing wire format. Each name is followed by `'@'`, and the
  string is read back with `split("@")`.
- `Registry`: the `DHT` class. It has the table (`map<Addr, string>`), the
  `on` flag, and `put`, `getFiles`, `nodeExit`, `print`, `switchOn` and
  `switchOff`. `Handle` models one iteration of the receive loop of `run`. It
  fills a fresh 1000-character NUL buffer from the datagram (an `array`), then
  answers. `Handle` is proved equal to the pure rule `Dispatch`, and all the
  lemmas are about `Dispatch`. `IntendedDispatch` is the corrected rule of
  the Findings section.
- `Peer`: the `Node` class with `_serverIP`, `_bcThread`, `_listFiles` and
  `_workingDir`, and the methods `register`, `retrieve`, `unregister`, `exit`
  and `sync`. What a socket would deliver is an input instead: an
  acknowledgement or a timeout, a retrieve outcome, a lookup outcome, the
  pull that fails, and whether the control port can be bound. What the peer
  sends is returned as a list of datagrams.

`register` ends with a `retrieve`. A `retrieve` that times out registers
again. The model keeps this mutual recursion: it is bounded by the
`RetrieveOutcome` input, whose `TimedOut` case carries the next registration's
acknowledgement and the next retrieve's outcome.

Where the code differs from what the protocol evidently intends, the model
follows the code:

- Every peer that registers creates and seeds a registry of its own, even
  when another index acknowledged it (`src/p2p/p2pNode.java:126-130`). A
  registry is not limited to the index.
- Take a retrieve against an address where nothing listens. A refused
  connection is an I/O error, not a timeout, so the peer reports the failure
  and does not elect itself (`src/p2p/p2pNode.java:220-226`). Self-election
  happens only on a connect timeout (`Peer.SilenceElectsSelf`).
- A registration stores the whole receive buffer (see Findings).

## Model

| member | source | states |
|---|---|---|
| Text.SplitOn | src/p2p/p2pNode.java:289 | splitting always yields at least one piece |
| Text.JoinSplit | src/p2p/p2pNode.java:289 | joining the pieces with the delimiter gives back the string, and no piece contains the delimiter |
| Text.SplitJoin | src/p2p/p2pNode.java:289 | splitting a join of delimiter-free pieces gives back exactly those pieces |
| Text.DropTrailingEmpty | src/p2p/p2pNode.java:289 | the result is a prefix that does not end in an empty piece, and every dropped piece was empty |
| Text.SplitNoDelimiter | src/p2p/p2pNode.java:289 | a string without the delimiter splits into itself alone |
| Text.JavaSplit | src/p2p/p2pNode.java:289 | without the delimiter the result is the string alone; otherwise no piece holds the delimiter, the last piece is not empty, the pieces joined back form the start of the string and only delimiters follow them, and the result is empty exactly when the string is all delimiters |
| Listing.Encode | src/p2p/p2pNode.java:90-92 | the listing string is empty exactly when the listing is empty |
| Listing.EncodeListing | src/p2p/p2pNode.java:90-92 | the StringBuilder loop produces each name followed by '@', in listing order |
| Listing.Decode | src/p2p/p2pNode.java:289 | a string without '@' decodes to itself alone; otherwise no decoded name contains '@', the last name is not empty, the names joined with '@' form the start of the string and only '@' follows them, and no name comes back exactly when the string is all '@' |
| Listing.RoundTrip | src/p2p/p2pNode.java:289 | decoding the encoding of non-empty, '@'-free names gives back the names; the empty listing comes back as one empty name |
| Listing.TwoFileExample | src/p2p/p2pNode.java:90-92 | "a.txt@b.txt@" decodes to ["a.txt", "b.txt"], and that listing encodes back to the same string |
| Listing.DelimiterBreaksRoundTrip | src/p2p/p2pNode.java:289 | if any name of a listing contains '@', decoding its encoding does not give the listing back; the format has no escaping |
| Listing.DelimiterInNameSplits | src/p2p/p2pNode.java:289 | for example, the listing ["a@b"] encodes to "a@b@" and is read back as ["a", "b"] |
| Net.BroadcastAddress | src/p2p/p2pNode.java:96-99 | the first three bytes are the own address's, the fourth is 255; it equals the own address only if that already ends in 255 |
| Net.Octet | src/p2p/DHT.java:152 | a component is accepted exactly when it is decimal digits denoting at most 255, and the byte is their value |
| Net.FromComponents | src/p2p/DHT.java:152 | four components make an address exactly when all four are octets, and byte i is the value of component i |
| Net.Resolve | src/p2p/DHT.java:152-153 | the empty host is the loopback address; a non-empty host resolves exactly when it is at most 15 characters and splits on '.' into four octets, and then the address bytes are their values |
| Net.ResolveDotted | src/p2p/p2pNode.java:272 | the dotted text of every address resolves back to that address |
| Net.DecimalValue | src/p2p/DHT.java:142 | decimal digits read back as the number, and a byte takes at most three digits |
| Net.Components | src/p2p/DHT.java:142 | the four decimal components of an address are octets of at most three digits, each denoting its byte |
| Net.Dotted | src/p2p/DHT.java:142 | the printed address is at most 15 characters of digits and dots, and splits on '.' into four octets denoting the address bytes |
| Net.Render | src/p2p/DHT.java:142 | `toString` of an address starts with '/' and contains no blank |
| Net.RenderInjective | src/p2p/DHT.java:142 | two different addresses never print the same way |
| Registry.Received | src/p2p/DHT.java:136 | the compared text is the datagram when it fits the 1000-byte buffer, and exactly its first 1000 characters otherwise |
| Registry.Nuls | src/p2p/DHT.java:117 | the padding is a run of n NUL characters |
| Registry.Buffer | src/p2p/DHT.java:117-124 | the stored buffer is 1000 characters: the received text, then NUL up to the end |
| Registry.Line | src/p2p/DHT.java:142 | a snapshot line is the indent, the printed address, " : " and the listing, in that order |
| Registry.SnapshotLines | src/p2p/DHT.java:141-142 | every entry has its line in the snapshot, every element of the snapshot is the line of some entry, and every line of the snapshot names a registered address together with its listing |
| Registry.Dispatch | src/p2p/DHT.java:123-164 | an ack is sent exactly when the sender is unknown; an unknown sender is stored with the whole buffer whatever it sent; a known sender's listing never changes; no other entry changes and no other key appears |
| Registry.ServeAll | src/p2p/DHT.java:114-174 | the loop answers every datagram of the run with exactly one reply; every key of the final table was registered before the run or sent a datagram during it; an entry whose address sent nothing is kept unchanged (the partner over a whole run is FirstWriteWins) |
| Registry.LineInjective | src/p2p/DHT.java:141-142 | two snapshot lines are equal only for the same address and listing |
| Registry.SnapshotSize | src/p2p/DHT.java:141-142 | the snapshot has exactly as many lines as the table has entries |
| Registry.RetrieveAnswersSnapshot | src/p2p/DHT.java:136-147 | "RETRIEVE" from a known sender leaves the table unchanged and answers one line `address : listing` per entry |
| Registry.UnregisterRemovesSender | src/p2p/DHT.java:149-151 | "UNREGISTER" from a known sender removes that entry only, sends nothing, and the snapshot of the resulting table has no line naming the sender |
| Registry.LookupAnswersListing | src/p2p/DHT.java:152-164 | a known sender naming a registered address in dotted form receives exactly that address's listing, and the table is unchanged |
| Registry.OtherPayloadIgnored | src/p2p/DHT.java:152-173 | any other payload from a known sender, unresolvable ones included, changes nothing and gets no reply |
| Registry.FirstWriteWins | src/p2p/DHT.java:123-165 | over any run of datagrams, a registered peer keeps its listing while it sends no "UNREGISTER" |
| Registry.RepeatedRegistrationKeepsFirst | src/p2p/DHT.java:123-132 | registering again with a different listing leaves the first registration's buffer |
| Registry.StoredListingGainsNulName | src/p2p/DHT.java:124 | as written, a registered short listing decodes to its names plus one extra name made of NULs |
| Registry.IntendedDispatch | src/p2p/DHT.java:123-124 | the corrected rule stores a new peer's received text and acks it; for a known sender it is Dispatch |
| Registry.IntendedRegistrationRoundTrip | src/p2p/DHT.java:124 | under the corrected rule, a registered listing that fits the buffer decodes to exactly the peer's names |
| Registry.DHT.constructor | src/p2p/DHT.java:36-38 | a new registry is empty, and its loop flag is off |
| Registry.DHT.GetFiles | src/p2p/DHT.java:53-55 | there is a listing exactly for registered addresses, and it is the stored one |
| Registry.DHT.Put | src/p2p/DHT.java:70-72 | afterwards getFiles of the key returns the new listing (an overwrite); every other key is unchanged |
| Registry.DHT.NodeExit | src/p2p/DHT.java:61-63 | afterwards getFiles of the key is absent; every other key is unchanged; removing an absent key changes nothing |
| Registry.DHT.Print | src/p2p/DHT.java:77-80 | one tab-indented `address : listing` line per entry, and no more lines than entries |
| Registry.DHT.SwitchOff | src/p2p/DHT.java:85-88 | the loop flag is off |
| Registry.DHT.SwitchOn | src/p2p/DHT.java:93-95 | the loop flag is on |
| Registry.DHT.Handle | src/p2p/DHT.java:117-165 | the new table and the reply are those of Dispatch on the old table |
| Registry.DHT.Serve | src/p2p/DHT.java:114-174 | the table and replies after a run of datagrams are those of ServeAll |
| Peer.IndexAfterRetrieve | src/p2p/p2pNode.java:220-224 | the index a peer settles on is always itself, the index it already knew, or a peer that acknowledged one of its registrations; an answered or failed retrieve keeps the known index |
| Peer.IndexAfterRegister | src/p2p/p2pNode.java:113-123 | after registering, the index is the peer itself, the acknowledging peer, or a peer acknowledging a later registration |
| Peer.SilenceElectsSelf | src/p2p/p2pNode.java:220-224 | when the index times out and no other peer acknowledges a later registration, the peer becomes the index |
| Peer.LocalPath | src/p2p/p2pNode.java:295 | a pulled file is written under the working directory, after a backslash, with its own name |
| Peer.LocalPathsDistinct | src/p2p/p2pNode.java:295 | distinct names are written to distinct files |
| Peer.Attempted | src/p2p/p2pNode.java:290-303 | a sync never attempts more pulls than there are names |
| Peer.PullAll | src/p2p/p2pNode.java:290-303 | one pull per decoded name, in order, each to `workingDir + "\" + name`, stopping after the first that fails |
| Peer.Node.IsIndex | src/p2p/p2pNode.java:197 | the role test used by retrieve, unregister and sync (also lines 239, 275 and 307): the peer is the index exactly when the index address it knows is its own; a peer that knows no index is not the index |
| Peer.Node.constructor | src/p2p/p2pNode.java:36-41 | a new peer knows no index and runs no registry |
| Peer.Node.Register | src/p2p/p2pNode.java:81-144 | the listing is broadcast to the .255 address; the index becomes the acknowledging peer, or the peer itself on a timeout, then follows the closing retrieve; a registry is created and seeded with (own address, own encoding) only if none exists, and it is never replaced; the registry loop is on afterwards |
| Peer.Node.Retrieve | src/p2p/p2pNode.java:195-230 | the index prints its own table and sends nothing; any other peer sends "RETRIEVE" to its index and shows the lines, or reports a failure, or after a timeout re-registers, so its second datagram is its own listing broadcast to the .255 address of its subnet; without a registry it is a null dereference; the table never changes |
| Peer.Node.Unregister | src/p2p/p2pNode.java:237-261 | the index removes exactly its own entry and stops its loop; any other peer sends "UNREGISTER" to its index; before registering it is a null dereference |
| Peer.Node.Exit | src/p2p/p2pNode.java:343-348 | unregisters and leaves the registry loop off; the index loses exactly its own entry, and any other peer's table is unchanged |
| Peer.Node.Sync | src/p2p/p2pNode.java:268-341 | an unresolvable target or an unknown index ends it before anything is sent, pulled or changed; on the index the target's listing comes from the own table, and an absent target is a null split after the cleanup; other peers ask the index; there are no pulls when the listing is missing or the lookup fails; the pulls follow the decoded names; the registry loop flag never changes |
| Peer.Node.Republish | src/p2p/p2pNode.java:306-339 | the index's own entry becomes the encoding of the refreshed listing and the other entries are unchanged; any other peer that can bind the control port sends "UNREGISTER" and then its refreshed listing to the index; the registry loop flag never changes |

## Left out

- Sockets, datagrams and their timeouts (2 s and 5 s) are not modelled. Each
  outcome a peer waits for is an input, and each reply or datagram it sends
  is a returned value. The close-and-reopen of the registry's socket around
  each reply is not modelled.
- A reply that cannot be delivered is not modelled. For example, the ack's
  TCP connection may be refused. That exception is a `SocketException`, so
  the inner receive loop ends with the socket closed. The outer loop is
  still on, so it restarts the inner loop, whose `receive` fails on the
  closed socket again. The thread spins, printing its stop message and never
  receiving again, until `switchOff`.
- Threads are not modelled: `DHT.start`, the file-transfer listener `listen`,
  `join`, and the race between `switchOff` closing the socket and the loop's
  `SocketException`. Only the `on` flag is kept. `switchOn` sets the flag but
  does not reopen a closed socket. The model cannot show that a paused
  registry loop never receives again.
- File bytes are not modelled. The serving loop of `listen` and the byte
  copying of `sync` are left out; a pull is the connection it opens and the
  path it writes.
- Filesystem scanning is not modelled: `updateList`, `mkdir` and
  `setWorkingDir`. A listing is an input sequence of names.
- Host names are not modelled. Resolving one would need a name service, so
  `Net.Resolve` treats it as unresolvable. Java's other numeric literal forms
  (`a.b.c`, `a.b`, a single number, IPv6) are treated the same way, and so
  are non-ASCII digits.
- `Net.Resolve`: the check for ambiguous leading zeros in newer JDKs is not
  modelled.
- `InetAddress.toString` is modelled as `/` followed by the dotted address,
  for an address without a host name.
- Bytes and characters are not distinguished. A datagram payload is a
  character string, one character per byte, so `getBytes` and `new String`
  are assumed to act one to one (Latin-1). Multi-byte encodings are not
  modelled.
- The order of Hashtable iteration is not modelled. `print` and the
  "RETRIEVE" reply are sets of lines.
- The interactive console (`src/p2p/mainConsole.java`) is not modelled. It
  runs the whole command loop inside one `try` (`src/p2p/mainConsole.java:22-74`).
  An exception thrown out of a peer method is returned here as a status value,
  but in the program it ends the command session:
  - an `IOException`, including `UnknownHostException`, is caught after the
    loop. This is the status `UnknownHost`;
  - a `NullPointerException` is not caught, so it ends the main thread. A
    registry thread that was already started keeps the process alive. This
    covers the statuses `NoIndex`, `ListingMissing` and `NotRegistered`, and
    `ok == false` from `Unregister` and `Exit`.

  `LookupError` and `TransferError` are caught inside `sync` and leave the
  session running. `sync` with no parameter passes `""`, because the null test
  at `src/p2p/mainConsole.java:46` never holds. `""` resolves to the loopback
  address, as `Net.Resolve` states.
- A peer's ack after the member's final re-registration in `sync` is not
  modelled. The source only prints it.
- Peer.Node.Register: three I/O failures of `register` are not modelled, and
  `Valid()` assumes them away.
  - The datagram socket at `src/p2p/p2pNode.java:87` can fail to bind. The
    model assumes the broadcast is sent.
  - `new ServerSocket(_comPort)` at `src/p2p/p2pNode.java:107` can fail after
    the broadcast and the `switchOff`. An example is the port still being held
    by a registry blocked in `accept` at `src/p2p/DHT.java:139`. The exception
    leaves `register` with the registry loop off.
  - `accept` can succeed and then `getInputStream`/`readLine` can throw an
    `IOException` that is not a timeout (`src/p2p/p2pNode.java:113-124`). The
    `finally` block still creates, seeds and starts a registry
    (`src/p2p/p2pNode.java:126-130`), but `_serverIP` keeps its old value:
    null on a first registration. `switchOn`, `listen` and `retrieve`
    (`src/p2p/p2pNode.java:140-143`) are then skipped. The peer runs a
    registry but knows no index, a state `Valid()` rules out.

  The `ack` input has only two cases: an acknowledgement, or a timeout.

## Findings

| source | as written | input that shows it | evidently intended | confidence | as-written member | corrected member |
|---|---|---|---|---|---|---|
| src/p2p/DHT.java:124 | a new peer's listing is stored as `new String(dp.getData())`, the whole 1000-byte buffer | a peer whose listing is `["a.txt"]` registers with `"a.txt@"`; the stored listing is `"a.txt@"` followed by 994 NULs; a later `sync` of that peer decodes `["a.txt", <994 NULs>]` and opens a second pull for a file that does not exist | store only the received bytes, `new String(dp.getData(), 0, dp.getLength())`, as the comparisons at line 136 do | high; not executed | Registry.StoredListingGainsNulName | Registry.IntendedRegistrationRoundTrip |

`Registry.Dispatch` and `Registry.DHT.Handle` keep the behaviour as written,
because every other peer observes that behaviour. `Registry.IntendedDispatch`
is the corrected rule, and `Registry.IntendedRegistrationRoundTrip` proves
that a listing registered under it decodes to exactly the peer's names.

=== FILE: listing.dfy ===
/**
 * The listing wire format a peer publishes: every file name followed by
 * '@', in listing order, read back with Java's `split("@")`.
 */
module Listing {
  import opened Text

  const Delimiter: char := '@'

  /** A name that survives the wire format: not empty and free of the delimiter. */
  predicate WellFormedName(name: string)
  {
    name != "" && Delimiter !in name
  }

  /** The published string: each name followed by the delimiter. */
  function Encode(names: seq<string>): (r: string)
    ensures r == "" <==> names == []
  {
    if names == [] then "" else names[0] + [Delimiter] + Encode(names[1..])
  }

  /** The names read back from a published string: `str.split("@")`. */
  function Decode(s: string): (r: seq<string>)
    ensures Delimiter !in s ==> r == [s]
    ensures Delimiter in s ==> forall i :: 0 <= i < |r| ==> Delimiter !in r[i]
    ensures Delimiter in s && |r| > 0 ==> r[|r| - 1] != "" && JoinWith(r, Delimiter) <= s
    ensures Delimiter in s && |r| > 0 ==> forall i :: |JoinWith(r, Delimiter)| <= i < |s| ==> s[i] == Delimiter
    ensures Delimiter in s ==> (r == [] <==> forall i :: 0 <= i < |s| ==> s[i] == Delimiter)
  {
    JavaSplit(s, Delimiter)
  }

  lemma {:induction false} EncodeAppend(names: seq<string>, name: string)
    ensures Encode(names + [name]) == Encode(names) + name + [Delimiter]
    decreases |names|
  {
    if names == [] {
      assert names + [name] == [name];
    } else {
      assert (names + [name])[1..] == names[1..] + [name];
      EncodeAppend(names[1..], name);
    }
  }

  /**
   * The listing string built the way the peer builds it: a loop appending
   * each name and the delimiter to a growing buffer.
   */
  method EncodeListing(names: seq<string>) returns (s: string)
    ensures s == Encode(names)
  {
    s := "";
    for i := 0 to |names|
      invariant s == Encode(names[..i])
    {
      EncodeAppend(names[..i], names[i]);
      assert names[..i + 1] == names[..i] + [names[i]];
      s := s + names[i] + [Delimiter];
    }
    assert names[..|names|] == names;
  }

  /** Splitting an encoded listing yields its names, then whatever follows splits on its own. */
  lemma {:induction false} SplitEncoded(names: seq<string>, tail: string)
    requires forall i :: 0 <= i < |names| ==> Delimiter !in names[i]
    ensures SplitOn(Encode(names) + tail, Delimiter) == names + SplitOn(tail, Delimiter)
    decreases |names|
  {
    if names != [] {
      var first, later := names[0], Encode(names[1..]);
      var rest := later + tail;
      assert Encode(names) + tail == first + [Delimiter] + rest;
      SplitAfterPiece(first, rest, Delimiter);
      SplitEncoded(names[1..], tail);
      calc {
        SplitOn(Encode(names) + tail, Delimiter);
        SplitOn(first + [Delimiter] + rest, Delimiter);
        [first] + SplitOn(rest, Delimiter);
        [first] + (names[1..] + SplitOn(tail, Delimiter));
        { assert [first] + names[1..] == names; }
        names + SplitOn(tail, Delimiter);
      }
    } else {
      assert Encode(names) + tail == tail;
    }
  }

  /**
   * Decoding an encoded listing of well-formed names gives the listing back;
   * the empty listing encodes to "" and comes back as one empty name.
   */
  lemma RoundTrip(names: seq<string>)
    requires forall i :: 0 <= i < |names| ==> WellFormedName(names[i])
    ensures Decode(Encode(names)) == if names == [] then [""] else names
  {
    if names != [] {
      var s := Encode(names);
      SplitEncoded(names, "");
      assert s + "" == s;
      EncodedHasDelimiter(names);
      assert names[|names| - 1] != "";
      TrimOneEmpty(names);
    }
  }

  /** A non-empty listing's encoding contains the delimiter. */
  lemma EncodedHasDelimiter(names: seq<string>)
    requires names != []
    ensures Delimiter in Encode(names)
  {
    var e := Encode(names);
    assert e == names[0] + [Delimiter] + Encode(names[1..]);
    assert e[|names[0]|] == Delimiter;
  }

  /** The listing "a.txt@b.txt@" and its two names. */
  lemma TwoFileExample()
    ensures Decode("a.txt@b.txt@") == ["a.txt", "b.txt"]
    ensures Encode(["a.txt", "b.txt"]) == "a.txt@b.txt@"
  {
    var names := ["a.txt", "b.txt"];
    assert Encode(names[1..][1..]) == "";
    assert Encode(names) == "a.txt@b.txt@";
    assert WellFormedName(names[0]) && WellFormedName(names[1]);
    RoundTrip(names);
  }

  /**
   * The format has no escaping: once any name holds the delimiter, decoding
   * the encoded listing no longer gives the listing back.
   */
  lemma DelimiterBreaksRoundTrip(names: seq<string>, k: nat)
    requires k < |names| && Delimiter in names[k]
    ensures Decode(Encode(names)) != names
  {
    var e := Encode(names);
    EncodedHasDelimiter(names);
    var r := Decode(e);
    assert k < |r| ==> Delimiter !in r[k];
  }

  /** For example, the name "a@b" is read back as the two names "a" and "b". */
  lemma DelimiterInNameSplits()
    ensures Encode(["a@b"]) == "a@b@"
    ensures Decode(Encode(["a@b"])) == ["a", "b"]
  {
    var e := Encode(["a@b"]);
    assert e == "a@b@";
    assert e == "a" + [Delimiter] + ("b" + [Delimiter] + "");
    SplitAfterPiece("a", "b" + [Delimiter] + "", Delimiter);
    SplitAfterPiece("b", "", Delimiter);
    assert SplitOn(e, Delimiter) == ["a", "b", ""];
    assert Delimiter in e by { assert e[1] == Delimiter; }
    assert ["a", "b", ""][..2] == ["a", "b"];
  }
}

=== FILE: net.dfy ===
/**
 * IPv4 peer identities: 4-byte addresses, their dotted-decimal text, the
 * part of `InetAddress.getByName` that turns a literal back into an
 * address, and the subnet broadcast address a peer registers through.
 */
module Net {
  import opened Wrappers
  import opened Text

  newtype byte = x: int | 0 <= x < 256

  /** A peer identity: the four bytes of `InetAddress.getAddress()`. */
  type Addr = a: seq<byte> | |a| == 4 witness [0, 0, 0, 0]

  /** What `getByName("")` resolves to: the loopback interface. */
  const Loopback: Addr := [127, 0, 0, 1]

  /** The longest text an IPv4 literal may have ("255.255.255.255"). */
  const MaxLiteralLength := 15

  function DigitChar(k: nat): char
    requires k < 10
  {
    (48 + k) as char
  }

  predicate IsDigits(s: string)
  {
    |s| > 0 && forall i :: 0 <= i < |s| ==> '0' <= s[i] <= '9'
  }

  /** Decimal digits of `n`, most significant first, no leading zeros. */
  function Decimal(n: nat): string
    decreases n
  {
    if n < 10 then [DigitChar(n)] else Decimal(n / 10) + [DigitChar(n % 10)]
  }

  /** The number a string of decimal digits denotes. */
  function DigitsValue(s: string): nat
    requires forall i :: 0 <= i < |s| ==> '0' <= s[i] <= '9'
    decreases |s|
  {
    if |s| == 0 then 0 else DigitsValue(s[..|s| - 1]) * 10 + (s[|s| - 1] as int - 48)
  }

  /** One component of a dotted literal: decimal digits denoting at most 255. */
  function Octet(part: string): (r: Option<byte>)
    ensures r.Some? ==> IsDigits(part) && r.value as int == DigitsValue(part)
    ensures IsDigits(part) && DigitsValue(part) <= 255 ==> r.Some?
  {
    if IsDigits(part) && DigitsValue(part) <= 255 then Some(DigitsValue(part) as byte) else None
  }

  /** Decimal writes digits that read back as `n`, at most three of them below 1000. */
  lemma {:induction false} DecimalValue(n: nat)
    ensures IsDigits(Decimal(n))
    ensures DigitsValue(Decimal(n)) == n
    ensures n < 100 ==> |Decimal(n)| <= 2
    ensures n < 1000 ==> |Decimal(n)| <= 3
    decreases n
  {
    if n >= 10 {
      DecimalValue(n / 10);
      var s := Decimal(n);
      assert s[..|s| - 1] == Decimal(n / 10);
    }
  }

  /** A byte's decimal text: at most three digits, an octet that denotes the byte. */
  lemma ByteDecimal(n: byte)
    ensures IsDigits(Decimal(n as nat)) && |Decimal(n as nat)| <= 3
    ensures Octet(Decimal(n as nat)) == Some(n)
  {
    DecimalValue(n as nat);
  }

  /** The four decimal components of an address, in order: each an octet denoting its byte. */
  function Components(a: Addr): (r: seq<string>)
    ensures |r| == 4
    ensures forall i :: 0 <= i < 4 ==> IsDigits(r[i]) && |r[i]| <= 3 && Octet(r[i]) == Some(a[i])
  {
    ByteDecimal(a[0]);
    ByteDecimal(a[1]);
    ByteDecimal(a[2]);
    ByteDecimal(a[3]);
    [Decimal(a[0] as nat), Decimal(a[1] as nat), Decimal(a[2] as nat), Decimal(a[3] as nat)]
  }

  /** A character of dotted-decimal text. */
  predicate DottedChar(c: char)
  {
    c == '.' || '0' <= c <= '9'
  }

  /**
   * The text `InetAddress` prints for an address with no host name: four
   * decimal components separated by dots, each denoting its byte.
   */
  function Dotted(a: Addr): (r: string)
    ensures |r| <= MaxLiteralLength
    ensures forall c :: c in r ==> DottedChar(c)
    ensures |SplitOn(r, '.')| == 4
    ensures forall i :: 0 <= i < 4 ==> Octet(SplitOn(r, '.')[i]) == Some(a[i])
  {
    DottedLength(a);
    DottedChars(a);
    DottedSplits(a);
    JoinWith(Components(a), '.')
  }

  lemma DottedLength(a: Addr)
    ensures |JoinWith(Components(a), '.')| <= MaxLiteralLength
  {
    var p := Components(a);
    JoinFour(p, '.');
    assert |p[0]| <= 3 && |p[1]| <= 3 && |p[2]| <= 3 && |p[3]| <= 3;
  }

  lemma DottedChars(a: Addr)
    ensures forall c :: c in JoinWith(Components(a), '.') ==> DottedChar(c)
  {
    var p := Components(a);
    forall i, c | 0 <= i < |p| && c in p[i] ensures DottedChar(c) {
      assert IsDigits(p[i]);
    }
    JoinWithin(p, '.', DottedChar);
  }

  lemma DottedSplits(a: Addr)
    ensures SplitOn(JoinWith(Components(a), '.'), '.') == Components(a)
  {
    var p := Components(a);
    forall i | 0 <= i < 4 ensures '.' !in p[i] {
      assert IsDigits(p[i]);
    }
    SplitJoin(p, '.');
  }

  /**
   * `InetAddress.getByName(host)` restricted to what needs no name service:
   * the empty host is the loopback address, a four-part dotted-decimal
   * literal is that address, and every other host is unresolvable
   * (`UnknownHostException`).
   */
  function Resolve(host: string): (r: Option<Addr>)
    ensures host == "" ==> r == Some(Loopback)
    ensures r.Some? && host != "" ==>
      && |host| <= MaxLiteralLength
      && |SplitOn(host, '.')| == 4
      && forall i :: 0 <= i < 4 ==> Octet(SplitOn(host, '.')[i]) == Some(r.value[i])
    ensures (0 < |host| <= MaxLiteralLength && |SplitOn(host, '.')| == 4
             && forall i :: 0 <= i < 4 ==> Octet(SplitOn(host, '.')[i]).Some?) ==> r.Some?
  {
    if host == "" then Some(Loopback)
    else if |host| > MaxLiteralLength then None
    else FromComponents(SplitOn(host, '.'))
  }

  /** Four components that are all octets make an address; anything else does not. */
  function FromComponents(parts: seq<string>): (r: Option<Addr>)
    ensures r.Some? ==> |parts| == 4 && forall i :: 0 <= i < 4 ==> Octet(parts[i]) == Some(r.value[i])
    ensures |parts| == 4 && (forall i :: 0 <= i < 4 ==> Octet(parts[i]).Some?) ==> r.Some?
  {
    if |parts| == 4 && Octet(parts[0]).Some? && Octet(parts[1]).Some?
       && Octet(parts[2]).Some? && Octet(parts[3]).Some?
    then Some([Octet(parts[0]).value, Octet(parts[1]).value, Octet(parts[2]).value, Octet(parts[3]).value])
    else None
  }

  /** The address can be read back from its dotted text. */
  lemma ResolveDotted(a: Addr)
    ensures Resolve(Dotted(a)) == Some(a)
  {
    var d := Dotted(a);
    assert d != "" by {
      assert SplitOn("", '.') == [""];
    }
    var r := Resolve(d);
    assert r.Some?;
    forall i | 0 <= i < 4 ensures r.value[i] == a[i] {
      assert Octet(SplitOn(d, '.')[i]) == Some(a[i]);
    }
    assert r.value == a;
  }

  /**
   * `InetAddress.toString()` of an address obtained from a packet: "/" then
   * the dotted text, which reads back as the address and holds no blank.
   */
  function Render(a: Addr): (r: string)
    ensures |r| > 0 && r[0] == '/' && Resolve(r[1..]) == Some(a)
    ensures ' ' !in r
  {
    ResolveDotted(a);
    var r := "/" + Dotted(a);
    assert r[1..] == Dotted(a);
    r
  }

  /** Distinct addresses print differently. */
  lemma RenderInjective(a: Addr, b: Addr)
    requires Render(a) == Render(b)
    ensures a == b
  {
  }

  /**
   * The subnet broadcast address the peer registers through: a copy of its
   * own address bytes with the last one overwritten by 255.
   */
  method BroadcastAddress(own: Addr) returns (b: Addr)
    ensures b[..3] == own[..3] && b[3] == 255
    ensures b == own <==> own[3] == 255
  {
    var ip := new byte[4](i requires 0 <= i < 4 => own[i]);
    ip[3] := 255;
    b := ip[..];
    assert b[3] == 255 && b[..3] == own[..3];
    assert b == own <==> own[3] == 255 by {
      if own[3] == 255 { assert b == own[..3] + [own[3]] == own; }
    }
  }
}

=== FILE: peer.dfy ===
/**
 * The peer agent: its role bookkeeping (which address it takes for the
 * index, when it creates and seeds its own registry), and what it sends,
 * pulls and reports for register, retrieve, unregister, sync and exit.
 * Every network event the peer waits for is an input of the method that
 * waits for it.
 */
module Peer {
  import opened Wrappers
  import opened Net
  import opened Registry
  import Listing

  /** The control port, shared by every peer for discovery datagrams. */
  const ComPort: nat := 57264
  /** The file-transfer port. */
  const FtPort: nat := 57265

  /** A datagram the peer sends. */
  datatype Outbound = Outbound(to: Addr, port: nat, payload: string)

  /** One file-transfer connection of a sync and the local file its bytes go to. */
  datatype Pull = Pull(from: Addr, port: nat, path: string)

  /**
   * How a remote retrieve turns out: the snapshot lines arrive, the exchange
   * fails with an I/O error, or the connection to the index times out. On a
   * timeout the peer registers again: `ack` is the acknowledgement that
   * registration hears (None for its own timeout) and `next` is how the
   * retrieve that registration ends with turns out.
   */
  datatype RetrieveOutcome =
    | Answered(lines: seq<string>)
    | Failed
    | TimedOut(ack: Option<Addr>, next: RetrieveOutcome)

  /** What a retrieve shows the operator. */
  datatype Report =
    | LocalSnapshot(entries: Table)       // the index prints its own table (DHT.Print)
    | RemoteSnapshot(received: seq<string>)  // lines received from the index
    | Unreachable                         // I/O error, reported and dropped
    | Reelected(after: Report)            // index timed out; registered again
    | NotRegistered                       // no registry yet: NullPointerException

  /** How the lookup of a listing from a remote index turns out. */
  datatype LookupOutcome =
    | LookupLine(line: string)  // the first line the index sends
    | LookupEmpty               // the connection ends before a line: readLine gives null
    | LookupFailed              // I/O error, caught inside sync

  datatype SyncStatus =
    | Synced
    | UnknownHost     // the parameter does not resolve; thrown out of sync
    | NoIndex         // no index known yet: NullPointerException, thrown out of sync
    | ListingMissing  // null listing split: NullPointerException after the cleanup
    | LookupError     // the lookup failed; the cleanup still runs
    | TransferError   // a pull failed; the pulls after it are not attempted

  /**
   * The index the peer ends with after a retrieve against `server`. Without
   * consensus, it is the peer itself, the index it already knew, or a peer
   * that acknowledged one of the registrations the retrieve ran into.
   */
  function IndexAfterRetrieve(own: Addr, server: Addr, o: RetrieveOutcome): (r: Addr)
    ensures r in {own, server} + Responders(o)
    ensures server == own || o.Answered? || o.Failed? ==> r == (if server == own then own else server)
    decreases o, 0
  {
    if server == own then own
    else match o
      case TimedOut(ack, next) => IndexAfterRegister(own, ack, next)
      case _ => server
  }

  /**
   * The index the peer ends with after registering and hearing `ack`: itself,
   * the acknowledging peer, or one acknowledging a later registration.
   */
  function IndexAfterRegister(own: Addr, ack: Option<Addr>, after: RetrieveOutcome): (r: Addr)
    ensures r in {own} + (if ack.Some? then {ack.value} else {}) + Responders(after)
    decreases after, 1
  {
    IndexAfterRetrieve(own, if ack.Some? then ack.value else own, after)
  }

  /** Every address that acknowledges one of the registrations a retrieve runs into. */
  function Responders(o: RetrieveOutcome): set<Addr>
  {
    match o
    case TimedOut(ack, next) => (if ack.Some? then {ack.value} else {}) + Responders(next)
    case _ => {}
  }

  /** The local file a pulled name is written to: the name, under the directory. */
  function LocalPath(dir: string, name: string): (r: string)
    ensures |r| == |dir| + 1 + |name|
    ensures r[..|dir|] == dir && r[|dir|] == '\\' && r[|dir| + 1..] == name
  {
    dir + "\\" + name
  }

  /** How many pulls a sync attempts: all of them, or up to and including the failing one. */
  function Attempted(count: nat, failAt: Option<nat>): (r: nat)
    ensures r <= count
  {
    if failAt.Some? && failAt.value < count then failAt.value + 1 else count
  }

  /** Distinct names in one directory are written to distinct files. */
  lemma LocalPathsDistinct(dir: string, a: string, b: string)
    requires a != b
    ensures LocalPath(dir, a) != LocalPath(dir, b)
  {
    assert LocalPath(dir, a)[|dir| + 1..] == a;
  }

  /**
   * Self-election: when the index stops answering and no other peer
   * acknowledges any later registration, the peer becomes the index.
   */
  lemma SilenceElectsSelf(own: Addr, server: Addr, o: RetrieveOutcome)
    requires o.TimedOut? && Responders(o) <= {own}
    ensures IndexAfterRetrieve(own, server, o) == own
  {
  }

  /**
   * The pulls of a sync: one connection per name, in listing order, each
   * written under the working directory, stopping at the first that fails.
   */
  method PullAll(from: Addr, dir: string, names: seq<string>, failAt: Option<nat>)
    returns (pulls: seq<Pull>, ok: bool)
    ensures |pulls| == Attempted(|names|, failAt)
    ensures forall i :: 0 <= i < |pulls| ==> pulls[i] == Pull(from, FtPort, LocalPath(dir, names[i]))
    ensures ok <==> |pulls| == |names| && !(failAt.Some? && failAt.value < |names|)
  {
    pulls := [];
    ok := true;
    var i := 0;
    while i < |names|
      invariant 0 <= i <= |names| && |pulls| == i
      invariant forall j :: 0 <= j < i ==> pulls[j] == Pull(from, FtPort, LocalPath(dir, names[j]))
      invariant failAt.Some? ==> failAt.value >= i
    {
      pulls := pulls + [Pull(from, FtPort, LocalPath(dir, names[i]))];
      if failAt == Some(i) {
        ok := false;
        return;
      }
      i := i + 1;
    }
  }

  /** One peer: its own address, working directory, listing, known index and registry. */
  class Node {
    const ipAddress: Addr
    var workingDir: string
    var listFiles: seq<string>
    var serverIP: Option<Addr>
    var bcThread: DHT?

    /** A peer knows an index exactly when it runs a registry of its own. */
    ghost predicate Valid()
      reads this
    {
      serverIP.None? <==> bcThread == null
    }

    constructor (ip: Addr, dir: string, files: seq<string>)
      ensures Valid()
      ensures ipAddress == ip && workingDir == dir && listFiles == files
      ensures serverIP == None && bcThread == null
    {
      ipAddress := ip;
      workingDir := dir;
      listFiles := files;
      serverIP := None;
      bcThread := null;
    }

    /** The role test: this peer is the index. */
    predicate IsIndex()
      reads this
    {
      serverIP == Some(ipAddress)
    }

    /**
     * `register`: broadcast the listing; take the acknowledging peer, or on
     * a timeout this peer, as the index; create and seed a registry only if
     * there is none yet; then retrieve.
     */
    method Register(ack: Option<Addr>, after: RetrieveOutcome) returns (sent: seq<Outbound>, report: Report)
      requires Valid()
      modifies this, bcThread
      decreases after, 1
      ensures Valid() && bcThread != null && bcThread.on
      ensures old(bcThread) != null ==> bcThread == old(bcThread) && bcThread.table == old(bcThread.table)
      ensures old(bcThread) == null ==> fresh(bcThread) && bcThread.table == map[ipAddress := Listing.Encode(listFiles)]
      ensures serverIP == Some(IndexAfterRegister(ipAddress, ack, after))
      ensures |sent| >= 1 && sent[0].port == ComPort && sent[0].payload == Listing.Encode(listFiles)
      ensures sent[0].to[..3] == ipAddress[..3] && sent[0].to[3] == 255
      ensures listFiles == old(listFiles) && workingDir == old(workingDir)
    {
      if bcThread != null {
        bcThread.SwitchOff();
      }
      var list := Listing.EncodeListing(listFiles);
      var addr := BroadcastAddress(ipAddress);
      var broadcast := Outbound(addr, ComPort, list);
      if ack.Some? {
        serverIP := Some(ack.value);
      } else {
        serverIP := Some(ipAddress);
      }
      if bcThread == null {
        var registry := new DHT();
        registry.Put(ipAddress, list);
        bcThread := registry;
      }
      bcThread.SwitchOn();
      var more;
      more, report := Retrieve(after);
      sent := [broadcast] + more;
    }

    /**
     * `retrieve`: the index prints its own table without sending anything;
     * any other peer pauses its registry, asks its index, and on a timeout
     * takes itself for the index and registers again.
     */
    method Retrieve(outcome: RetrieveOutcome) returns (sent: seq<Outbound>, report: Report)
      requires Valid()
      modifies this, bcThread
      decreases outcome, 0
      ensures Valid() && bcThread == old(bcThread)
      ensures listFiles == old(listFiles) && workingDir == old(workingDir)
      ensures old(bcThread) == null ==> report == NotRegistered && sent == [] && serverIP == None
      ensures old(bcThread) != null ==> bcThread.table == old(bcThread.table)
      ensures old(bcThread) != null ==> serverIP == Some(IndexAfterRetrieve(ipAddress, old(serverIP).value, outcome))
      ensures old(IsIndex()) ==> sent == [] && report == LocalSnapshot(old(bcThread.table)) && bcThread.on == old(bcThread.on)
      ensures old(serverIP).Some? && !old(IsIndex()) ==>
        && bcThread.on
        && |sent| >= 1 && sent[0] == Outbound(old(serverIP).value, ComPort, RetrieveRequest)
        && (outcome.Answered? ==> report == RemoteSnapshot(outcome.lines) && |sent| == 1)
        && (outcome.Failed? ==> report == Unreachable && |sent| == 1)
        && (outcome.TimedOut? ==> report.Reelected? && |sent| >= 2)
        && (outcome.TimedOut? ==> sent[1].port == ComPort && sent[1].payload == Listing.Encode(listFiles))
        && (outcome.TimedOut? ==> sent[1].to[..3] == ipAddress[..3] && sent[1].to[3] == 255)
    {
      if serverIP.Some? && serverIP.value == ipAddress {
        sent, report := [], LocalSnapshot(bcThread.table);
        return;
      }
      if bcThread == null {
        sent, report := [], NotRegistered;
        return;
      }
      bcThread.SwitchOff();
      var request := Outbound(serverIP.value, ComPort, RetrieveRequest);
      match outcome {
        case Answered(lines) =>
          sent, report := [request], RemoteSnapshot(lines);
        case Failed =>
          sent, report := [request], Unreachable;
        case TimedOut(ack, next) =>
          serverIP := Some(ipAddress);
          var more, inner := Register(ack, next);
          sent, report := [request] + more, Reelected(inner);
      }
      bcThread.SwitchOn();
    }

    /**
     * `unregister`: the index removes exactly its own entry and stops its
     * registry; any other peer sends "UNREGISTER" to its index.
     */
    method Unregister() returns (sent: seq<Outbound>, ok: bool)
      requires Valid()
      modifies bcThread
      ensures ok <==> old(serverIP).Some?
      ensures !ok ==> sent == []
      ensures IsIndex() ==> sent == [] && bcThread.table == old(bcThread.table) - {ipAddress} && !bcThread.on
      ensures ok && !IsIndex() ==>
        sent == [Outbound(serverIP.value, ComPort, UnregisterRequest)]
        && bcThread.table == old(bcThread.table) && bcThread.on
    {
      if serverIP.None? {
        sent, ok := [], false;
        return;
      }
      ok := true;
      if serverIP.value == ipAddress {
        bcThread.NodeExit(ipAddress);
        bcThread.SwitchOff();
        sent := [];
        return;
      }
      bcThread.SwitchOff();
      sent := [Outbound(serverIP.value, ComPort, UnregisterRequest)];
      bcThread.SwitchOn();
    }

    /** `exit`: unregister, then stop the registry loop for good. */
    method Exit() returns (sent: seq<Outbound>, ok: bool)
      requires Valid()
      modifies bcThread
      ensures ok <==> old(serverIP).Some?
      ensures ok ==> !bcThread.on
      ensures IsIndex() ==> sent == [] && bcThread.table == old(bcThread.table) - {ipAddress}
      ensures ok && !IsIndex() ==>
        sent == [Outbound(serverIP.value, ComPort, UnregisterRequest)] && bcThread.table == old(bcThread.table)
    {
      sent, ok := Unregister();
      if ok {
        bcThread.SwitchOff();
      }
    }

    /**
     * `sync`: learn the target's listing (from the own registry on the
     * index, from the index otherwise), pull one file per decoded name, and
     * finally publish the refreshed listing of the working directory.
     * `refreshed` is that listing; `portFree` says whether the control port
     * can be bound again for the member's final re-registration.
     */
    method Sync(ipParam: string, lookup: LookupOutcome, failAt: Option<nat>, refreshed: seq<string>, portFree: bool)
      returns (sent: seq<Outbound>, pulls: seq<Pull>, status: SyncStatus)
      requires Valid()
      modifies this, bcThread
      ensures Valid() && bcThread == old(bcThread) && serverIP == old(serverIP) && workingDir == old(workingDir)
      ensures status == UnknownHost <==> Resolve(ipParam).None?
      ensures status == NoIndex <==> Resolve(ipParam).Some? && old(serverIP).None?
      ensures status in {UnknownHost, NoIndex} ==> sent == [] && pulls == [] && listFiles == old(listFiles)
      ensures status in {ListingMissing, LookupError} ==> pulls == []
      ensures status == UnknownHost && bcThread != null ==> bcThread.table == old(bcThread.table)
      ensures bcThread != null ==> bcThread.on == old(bcThread.on)
      ensures forall i :: 0 <= i < |pulls| ==> pulls[i].from == Resolve(ipParam).value && pulls[i].port == FtPort
      ensures Resolve(ipParam).Some? && IsIndex() ==>
        && sent == [] && listFiles == refreshed
        && bcThread.table == old(bcThread.table)[ipAddress := Listing.Encode(refreshed)]
        && (Resolve(ipParam).value !in old(bcThread.table) <==> status == ListingMissing)
      ensures Resolve(ipParam).Some? && IsIndex() && Resolve(ipParam).value in old(bcThread.table) ==>
        var names := Listing.Decode(old(bcThread.table)[Resolve(ipParam).value]);
        && |pulls| == Attempted(|names|, failAt)
        && (forall i :: 0 <= i < |pulls| ==> pulls[i].path == LocalPath(workingDir, names[i]))
        && (status == Synced <==> !(failAt.Some? && failAt.value < |names|))
      ensures Resolve(ipParam).Some? && serverIP.Some? && !IsIndex() ==>
        && bcThread.table == old(bcThread.table)
        && |sent| >= 1 && sent[0] == Outbound(serverIP.value, ComPort, ipParam)
        && (portFree ==>
              && listFiles == refreshed
              && sent[1..] == [Outbound(serverIP.value, ComPort, UnregisterRequest),
                               Outbound(serverIP.value, ComPort, Listing.Encode(refreshed))])
        && (!portFree ==> listFiles == old(listFiles) && |sent| == 1)
        && (lookup.LookupEmpty? <==> status == ListingMissing)
        && (lookup.LookupFailed? <==> status == LookupError)
      ensures Resolve(ipParam).Some? && serverIP.Some? && !IsIndex() && lookup.LookupLine? ==>
        var names := Listing.Decode(lookup.line);
        && |pulls| == Attempted(|names|, failAt)
        && (forall i :: 0 <= i < |pulls| ==> pulls[i].path == LocalPath(workingDir, names[i]))
        && (status == Synced <==> !(failAt.Some? && failAt.value < |names|))
    {
      sent, pulls := [], [];
      var reqIP := Resolve(ipParam);
      if reqIP.None? {
        status := UnknownHost;
        return;
      }
      if serverIP.None? {
        status := NoIndex;
        return;
      }
      var server := serverIP.value;
      var listing: Option<string>;
      var failed := false;
      if server == ipAddress {
        listing := bcThread.GetFiles(reqIP.value);
      } else {
        sent := [Outbound(server, ComPort, ipParam)];
        match lookup {
          case LookupLine(line) => listing := Some(line);
          case LookupEmpty => listing := None;
          case LookupFailed => listing := None; failed := true;
        }
      }
      if failed {
        status := LookupError;
      } else if listing.None? {
        status := ListingMissing;
      } else {
        var names := Listing.Decode(listing.value);
        var ok;
        pulls, ok := PullAll(reqIP.value, workingDir, names, failAt);
        status := if ok then Synced else TransferError;
      }
      var more := Republish(refreshed, portFree);
      sent := sent + more;
    }

    /**
     * The cleanup that ends every sync with a known index: the index
     * replaces its own entry with the refreshed listing; any other peer, if
     * it can bind the control port, unregisters and registers the refreshed
     * listing with its index.
     */
    method Republish(refreshed: seq<string>, portFree: bool) returns (more: seq<Outbound>)
      requires Valid() && serverIP.Some?
      modifies this`listFiles, bcThread
      ensures bcThread.on == old(bcThread.on)
      ensures IsIndex() ==>
        && more == [] && listFiles == refreshed
        && bcThread.table == old(bcThread.table)[ipAddress := Listing.Encode(refreshed)]
      ensures !IsIndex() ==> bcThread.table == old(bcThread.table)
      ensures !IsIndex() && portFree ==>
        && listFiles == refreshed
        && more == [Outbound(serverIP.value, ComPort, UnregisterRequest),
                    Outbound(serverIP.value, ComPort, Listing.Encode(refreshed))]
      ensures !IsIndex() && !portFree ==> more == [] && listFiles == old(listFiles)
    {
      more := [];
      var server := serverIP.value;
      if server == ipAddress {
        bcThread.NodeExit(ipAddress);
        listFiles := refreshed;
        var list := Listing.EncodeListing(listFiles);
        bcThread.Put(ipAddress, list);
      } else if portFree {
        listFiles := refreshed;
        var list := Listing.EncodeListing(listFiles);
        more := [Outbound(server, ComPort, UnregisterRequest), Outbound(server, ComPort, list)];
      }
    }
  }
}

=== FILE: registry.dfy ===
/**
 * The index registry: the table from peer address to published listing,
 * and the rule by which the registry's receive loop answers one datagram.
 */
module Registry {
  import opened Wrappers
  import opened Text
  import opened Net
  import Listing

  /** The datagram receive buffer of the registry loop, in bytes. */
  const BufferSize: nat := 1000

  const RegisteredAck: string := "REGISTERED"
  const RetrieveRequest: string := "RETRIEVE"
  const UnregisterRequest: string := "UNREGISTER"

  /** The registry table: peer address to listing string. */
  type Table = map<Addr, string>

  /** One datagram as the registry loop receives it. */
  datatype Inbound = Inbound(sender: Addr, payload: string)

  /** What the registry answers a datagram with, instead of opening a socket. */
  datatype Reply =
    | Ack(to: Addr, text: string)     // "REGISTERED", sent to the new peer
    | Snapshot(lines: set<string>)   // one line per entry
    | Files(listing: string)         // the listing of the address asked for
    | NoReply

  /** The text of a datagram: only its first BufferSize characters arrive. */
  function Received(payload: string): (r: string)
    ensures |r| <= BufferSize && r <= payload
    ensures |payload| <= BufferSize ==> r == payload
    ensures |payload| > BufferSize ==> r == payload[..BufferSize]
  {
    if |payload| <= BufferSize then payload else payload[..BufferSize]
  }

  /** A run of n NUL characters: the untouched part of a fresh receive buffer. */
  function Nuls(n: nat): (r: string)
    ensures |r| == n && forall i :: 0 <= i < n ==> r[i] == '\0'
  {
    seq(n, _ => '\0')
  }

  /** The whole receive buffer after a datagram arrives: its text, then NUL padding. */
  function Buffer(payload: string): (r: string)
    ensures |r| == BufferSize
    ensures r[..|Received(payload)|] == Received(payload)
    ensures forall i :: |Received(payload)| <= i < BufferSize ==> r[i] == '\0'
  {
    Received(payload) + Nuls(BufferSize - |Received(payload)|)
  }

  /**
   * One snapshot line for an entry, `address + " : " + listing`, after an
   * indent: the printed address runs up to the first blank, and the listing
   * follows the " : " after it.
   */
  function Line(indent: string, k: Addr, v: string): (r: string)
    ensures |r| == |indent| + |Render(k)| + 3 + |v|
    ensures r[..|indent|] == indent && r[|indent|..|indent| + |Render(k)|] == Render(k)
    ensures r[|indent| + |Render(k)|..] == " : " + v
  {
    indent + Render(k) + " : " + v
  }

  /**
   * The snapshot of a table, in no particular order: a line for every entry
   * and nothing else, so every line names a registered address together
   * with its listing.
   */
  function SnapshotLines(t: Table, indent: string): (r: set<string>)
    ensures forall k :: k in t ==> Line(indent, k, t[k]) in r
    ensures forall k, v :: Line(indent, k, v) in r ==> k in t && v == t[k]
    ensures forall l :: l in r ==> exists k :: k in t && l == Line(indent, k, t[k])
  {
    LinesNameEntries(t, indent);
    set k | k in t :: Line(indent, k, t[k])
  }

  /** A line of the snapshot set can only be the line of its own entry. */
  lemma LinesNameEntries(t: Table, indent: string)
    ensures forall k, v :: Line(indent, k, v) in (set k | k in t :: Line(indent, k, t[k])) ==> k in t && v == t[k]
  {
    forall k, v | Line(indent, k, v) in (set k | k in t :: Line(indent, k, t[k])) ensures k in t && v == t[k] {
      var k' :| k' in t && Line(indent, k, v) == Line(indent, k', t[k']);
      LineInjective(indent, k, v, k', t[k']);
    }
  }

  /**
   * The body of the registry's receive loop for one datagram: the new table
   * and the reply. An unknown sender is registered whatever it sent; a known
   * sender may ask for the snapshot, unregister itself, or name an address
   * whose listing it wants; anything else is ignored.
   */
  function Dispatch(t: Table, sender: Addr, payload: string): (r: (Table, Reply))
    ensures r.1.Ack? <==> sender !in t
    ensures sender !in t ==> r.0 == t[sender := Buffer(payload)] && r.1 == Ack(sender, RegisteredAck)
    ensures sender in t && sender in r.0 ==> r.0[sender] == t[sender]
    ensures r.0.Keys <= t.Keys + {sender}
    ensures forall k :: k in t && k != sender ==> k in r.0 && r.0[k] == t[k]
  {
    var received := Received(payload);
    if sender !in t then (t[sender := Buffer(payload)], Ack(sender, RegisteredAck))
    else if received == RetrieveRequest then (t, Snapshot(SnapshotLines(t, "")))
    else if received == UnregisterRequest then (t - {sender}, NoReply)
    else
      var target := Resolve(received);
      if target.Some? && target.value in t then (t, Files(t[target.value])) else (t, NoReply)
  }

  /** The registry loop over a run of datagrams, in arrival order. */
  function ServeAll(t: Table, batch: seq<Inbound>): (r: (Table, seq<Reply>))
    ensures |r.1| == |batch|
    ensures r.0.Keys <= t.Keys + Senders(batch)
    ensures forall k :: k in t && k !in Senders(batch) ==> k in r.0 && r.0[k] == t[k]
    decreases |batch|
  {
    if batch == [] then (t, [])
    else
      var step := Dispatch(t, batch[0].sender, batch[0].payload);
      var rest := ServeAll(step.0, batch[1..]);
      SendersSplit(batch);
      (rest.0, [step.1] + rest.1)
  }

  /** The addresses a run of datagrams comes from. */
  function Senders(batch: seq<Inbound>): set<Addr>
  {
    set i | 0 <= i < |batch| :: batch[i].sender
  }

  lemma SendersSplit(batch: seq<Inbound>)
    requires batch != []
    ensures Senders(batch) == {batch[0].sender} + Senders(batch[1..])
  {
    forall k | k in Senders(batch) ensures k in {batch[0].sender} + Senders(batch[1..]) {
      var i :| 0 <= i < |batch| && batch[i].sender == k;
      if i > 0 { assert batch[1..][i - 1] == batch[i]; }
    }
    forall k | k in Senders(batch[1..]) ensures k in Senders(batch) {
      var i :| 0 <= i < |batch[1..]| && batch[1..][i].sender == k;
      assert batch[i + 1] == batch[1..][i];
    }
  }

  /** Some datagram of the run is an unregister request from `s`. */
  predicate SendsUnregister(batch: seq<Inbound>, s: Addr)
  {
    exists i :: 0 <= i < |batch| && batch[i].sender == s && Received(batch[i].payload) == UnregisterRequest
  }

  /** Two snapshot lines are equal only for the same entry. */
  lemma LineInjective(indent: string, k1: Addr, v1: string, k2: Addr, v2: string)
    requires Line(indent, k1, v1) == Line(indent, k2, v2)
    ensures k1 == k2 && v1 == v2
  {
    var r1, r2 := Render(k1), Render(k2);
    var l1, l2 := Line(indent, k1, v1), Line(indent, k2, v2);
    var n := |indent|;
    assert |r1| == |r2| by {
      assert l1[n + |r1|] == ' ' && l2[n + |r2|] == ' ';
      assert forall i :: 0 <= i < |r1| ==> l1[n + i] == r1[i];
      assert forall i :: 0 <= i < |r2| ==> l2[n + i] == r2[i];
    }
    assert r1 == l1[n..n + |r1|] == l2[n..n + |r2|] == r2;
    RenderInjective(k1, k2);
    assert " : " + v1 == l1[n + |r1|..] == l2[n + |r2|..] == " : " + v2;
    assert v1 == (" : " + v1)[3..] == (" : " + v2)[3..] == v2;
  }

  /** The snapshot has exactly one line per entry of the table. */
  lemma {:induction false} SnapshotSize(t: Table, indent: string)
    ensures |SnapshotLines(t, indent)| == |t|
    decreases |t|
  {
    if t != map[] {
      var k :| k in t;
      var rest := t - {k};
      SnapshotSize(rest, indent);
      SnapshotSplits(t, k, indent);
      OneFewer(t, k);
      assert Line(indent, k, t[k]) !in SnapshotLines(rest, indent) by {
        assert k !in rest;
      }
    }
  }

  /** Removing a present key leaves one entry fewer. */
  lemma OneFewer(t: Table, k: Addr)
    requires k in t
    ensures |t - {k}| == |t| - 1
  {
    assert (t - {k}).Keys == t.Keys - {k};
  }

  /** The snapshot of a table is that of the table without one entry, plus that entry's line. */
  lemma SnapshotSplits(t: Table, k: Addr, indent: string)
    requires k in t
    ensures SnapshotLines(t, indent) == SnapshotLines(t - {k}, indent) + {Line(indent, k, t[k])}
  {
    var rest := t - {k};
    SnapshotShrinks(t, k, indent);
    forall j | j in rest ensures Line(indent, j, rest[j]) in SnapshotLines(t, indent) {
      assert j in t && t[j] == rest[j];
    }
  }

  lemma SnapshotShrinks(t: Table, k: Addr, indent: string)
    requires k in t
    ensures SnapshotLines(t, indent) <= SnapshotLines(t - {k}, indent) + {Line(indent, k, t[k])}
  {
    var rest := t - {k};
    forall l | l in SnapshotLines(t, indent) ensures l in SnapshotLines(rest, indent) + {Line(indent, k, t[k])} {
      var j :| j in t && l == Line(indent, j, t[j]);
      if j != k {
        EntryKept(t, k, j);
        assert l == Line(indent, j, rest[j]);
      }
    }
  }

  /** Removing one key keeps every other entry. */
  lemma EntryKept(t: Table, k: Addr, j: Addr)
    requires j in t && j != k
    ensures j in t - {k} && (t - {k})[j] == t[j]
  {
  }

  /** From a known sender, "RETRIEVE" leaves the table alone and answers one line per entry. */
  lemma RetrieveAnswersSnapshot(t: Table, sender: Addr, payload: string)
    requires sender in t && Received(payload) == RetrieveRequest
    ensures Dispatch(t, sender, payload).0 == t
    ensures Dispatch(t, sender, payload).1.Snapshot?
    ensures |Dispatch(t, sender, payload).1.lines| == |t|
    ensures forall k :: k in t ==> Line("", k, t[k]) in Dispatch(t, sender, payload).1.lines
  {
    SnapshotSize(t, "");
  }

  /**
   * From a known sender, "UNREGISTER" removes that sender and nothing else,
   * sends nothing, and no later snapshot line names the sender.
   */
  lemma UnregisterRemovesSender(t: Table, sender: Addr, payload: string)
    requires sender in t && Received(payload) == UnregisterRequest
    ensures Dispatch(t, sender, payload) == (t - {sender}, NoReply)
    ensures forall v :: Line("", sender, v) !in SnapshotLines(Dispatch(t, sender, payload).0, "")
  {
  }

  /** A known sender naming a registered address in dotted form gets that address's listing. */
  lemma LookupAnswersListing(t: Table, sender: Addr, target: Addr)
    requires sender in t && target in t
    ensures Dispatch(t, sender, Dotted(target)) == (t, Files(t[target]))
  {
    ResolveDotted(target);
    var d := Dotted(target);
    assert Received(d) == d;
    assert d != RetrieveRequest && d != UnregisterRequest by {
      assert SplitOn("", '.') == [""];
      assert d[0] in d && DottedChar(d[0]);
    }
  }

  /** A known sender whose text is no command and resolves to no registered address changes nothing. */
  lemma OtherPayloadIgnored(t: Table, sender: Addr, payload: string)
    requires sender in t
    requires Received(payload) != RetrieveRequest && Received(payload) != UnregisterRequest
    requires Resolve(Received(payload)).None? || Resolve(Received(payload)).value !in t
    ensures Dispatch(t, sender, payload) == (t, NoReply)
  {
  }

  /**
   * First write wins through the loop: a registered peer keeps its first
   * listing for as long as it sends no unregister request.
   */
  lemma {:induction false} FirstWriteWins(t: Table, batch: seq<Inbound>, s: Addr)
    requires s in t && !SendsUnregister(batch, s)
    ensures s in ServeAll(t, batch).0 && ServeAll(t, batch).0[s] == t[s]
    decreases |batch|
  {
    if batch != [] {
      var step := Dispatch(t, batch[0].sender, batch[0].payload);
      assert s in step.0 && step.0[s] == t[s] by {
        if batch[0].sender == s {
          assert Received(batch[0].payload) != UnregisterRequest;
        }
      }
      assert !SendsUnregister(batch[1..], s) by {
        forall i | 0 <= i < |batch[1..]|
          ensures !(batch[1..][i].sender == s && Received(batch[1..][i].payload) == UnregisterRequest)
        {
          assert batch[1..][i] == batch[i + 1];
        }
      }
      FirstWriteWins(step.0, batch[1..], s);
    }
  }

  /** Registering the same peer again, with any listing, leaves the first registration's buffer. */
  lemma RepeatedRegistrationKeepsFirst(t: Table, s: Addr, payload: string, later: seq<Inbound>)
    requires s !in t && !SendsUnregister(later, s)
    ensures s in ServeAll(t, [Inbound(s, payload)] + later).0
    ensures ServeAll(t, [Inbound(s, payload)] + later).0[s] == Buffer(payload)
  {
    var batch := [Inbound(s, payload)] + later;
    assert batch[1..] == later;
    FirstWriteWins(t[s := Buffer(payload)], later, s);
  }

  /**
   * As written, a registration stores the whole receive buffer, so a short
   * listing is stored with its NUL padding, and decoding it yields one extra
   * name made of NULs after the real names.
   */
  lemma StoredListingGainsNulName(t: Table, s: Addr, names: seq<string>)
    requires s !in t && names != []
    requires forall i :: 0 <= i < |names| ==> Listing.WellFormedName(names[i])
    requires |Listing.Encode(names)| < BufferSize
    ensures Listing.Decode(Dispatch(t, s, Listing.Encode(names)).0[s])
            == names + [Nuls(BufferSize - |Listing.Encode(names)|)]
  {
    var e := Listing.Encode(names);
    var pad := Nuls(BufferSize - |e|);
    assert Dispatch(t, s, e).0[s] == e + pad;
    assert '@' !in pad;
    Listing.SplitEncoded(names, pad);
    SplitNoDelimiter(pad, '@');
    assert '@' in e + pad by {
      assert e == names[0] + ['@'] + Listing.Encode(names[1..]);
      assert (e + pad)[|names[0]|] == '@';
    }
    assert pad != "";
  }

  /**
   * The registration rule as evidently intended: identical to Dispatch,
   * except that a new peer's entry is the received text, not the whole
   * receive buffer.
   */
  function IntendedDispatch(t: Table, sender: Addr, payload: string): (r: (Table, Reply))
    ensures sender !in t ==> r.0 == t[sender := Received(payload)] && r.1 == Ack(sender, RegisteredAck)
    ensures sender in t ==> r == Dispatch(t, sender, payload)
  {
    if sender !in t then (t[sender := Received(payload)], Ack(sender, RegisteredAck))
    else Dispatch(t, sender, payload)
  }

  /**
   * Under the intended rule, a peer that registers a listing which fits the
   * buffer has an entry that decodes to exactly its names.
   */
  lemma IntendedRegistrationRoundTrip(t: Table, s: Addr, names: seq<string>)
    requires s !in t
    requires forall i :: 0 <= i < |names| ==> Listing.WellFormedName(names[i])
    requires |Listing.Encode(names)| <= BufferSize
    ensures s in IntendedDispatch(t, s, Listing.Encode(names)).0
    ensures Listing.Decode(IntendedDispatch(t, s, Listing.Encode(names)).0[s])
            == if names == [] then [""] else names
  {
    Listing.RoundTrip(names);
  }

  /**
   * The registry thread's state: the table and the flag that keeps its
   * receive loop going.
   */
  class DHT {
    var table: Table
    var on: bool

    constructor ()
      ensures table == map[] && !on
    {
      table := map[];
      on := false;
    }

    /** `getFiles`: the listing of a peer, or None (Java's null) when absent. */
    function GetFiles(ip: Addr): (r: Option<string>)
      reads this
      ensures r.Some? <==> ip in table
      ensures r.Some? ==> r.value == table[ip]
    {
      if ip in table then Some(table[ip]) else None
    }

    /** `put`: Hashtable semantics, a later put overwrites. */
    method Put(ip: Addr, files: string)
      modifies this`table
      ensures GetFiles(ip) == Some(files)
      ensures forall k :: k != ip ==> GetFiles(k) == old(GetFiles(k))
      ensures table == old(table)[ip := files]
    {
      table := table[ip := files];
    }

    /** `nodeExit`: removes the peer; removing an absent peer changes nothing. */
    method NodeExit(ip: Addr)
      modifies this`table
      ensures GetFiles(ip) == None
      ensures forall k :: k != ip ==> GetFiles(k) == old(GetFiles(k))
      ensures ip !in old(table) ==> table == old(table)
      ensures table == old(table) - {ip}
    {
      table := table - {ip};
    }

    /** `print`: one tab-indented line per entry. */
    function Print(): (lines: set<string>)
      reads this
      ensures |lines| == |table|
      ensures forall k :: k in table ==> Line("\t", k, table[k]) in lines
    {
      SnapshotSize(table, "\t");
      SnapshotLines(table, "\t")
    }

    method SwitchOff()
      modifies this`on
      ensures !on
    {
      on := false;
    }

    method SwitchOn()
      modifies this`on
      ensures on
    {
      on := true;
    }

    /**
     * One iteration of the receive loop: a fresh zeroed buffer receives the
     * datagram, then the registry answers it.
     */
    method Handle(sender: Addr, payload: string) returns (reply: Reply)
      modifies this`table
      ensures (table, reply) == Dispatch(old(table), sender, payload)
    {
      var recv := new char[BufferSize](_ => '\0');
      var len := if |payload| < BufferSize then |payload| else BufferSize;
      for i := 0 to len
        modifies recv
        invariant forall j :: 0 <= j < i ==> recv[j] == payload[j]
        invariant forall j :: i <= j < BufferSize ==> recv[j] == '\0'
      {
        recv[i] := payload[i];
      }
      var received := recv[..len];
      var whole := recv[..];
      assert received == Received(payload);
      assert whole == Buffer(payload) by {
        var b := Buffer(payload);
        assert |whole| == |b|;
        forall j | 0 <= j < BufferSize ensures whole[j] == b[j] {
          if j < len { assert b[j] == Received(payload)[j]; }
        }
      }
      if sender !in table {
        table := table[sender := whole];
        reply := Ack(sender, RegisteredAck);
      } else if received == RetrieveRequest {
        reply := Snapshot(SnapshotLines(table, ""));
      } else if received == UnregisterRequest {
        table := table - {sender};
        reply := NoReply;
      } else {
        var target := Resolve(received);
        if target.Some? && target.value in table {
          reply := Files(table[target.value]);
        } else {
          reply := NoReply;
        }
      }
    }

    /** The receive loop over the datagrams that arrive while it listens. */
    method Serve(batch: seq<Inbound>) returns (replies: seq<Reply>)
      modifies this`table
      ensures (table, replies) == ServeAll(old(table), batch)
    {
      replies := [];
      assert batch[0..] == batch;
      for i := 0 to |batch|
        invariant ServeAll(table, batch[i..]).0 == ServeAll(old(table), batch).0
        invariant replies + ServeAll(table, batch[i..]).1 == ServeAll(old(table), batch).1
      {
        assert batch[i..][1..] == batch[i + 1..];
        var reply := Handle(batch[i].sender, batch[i].payload);
        replies := replies + [reply];
      }
      assert batch[|batch|..] == [];
      assert replies + [] == replies;
    }
  }
}

=== FILE: text.dfy ===
/**
 * Java's `String.split` with a one-character, non-regex delimiter and the
 * default limit 0: the pieces between delimiters, with trailing empty
 * pieces removed, and the whole string when the delimiter does not occur.
 */
module Text {

  /** Every piece between occurrences of `d`, empty pieces included. */
  function SplitOn(s: string, d: char): (r: seq<string>)
    ensures |r| >= 1
    decreases |s|
  {
    if |s| == 0 then [""]
    else if s[0] == d then [""] + SplitOn(s[1..], d)
    else
      var rest := SplitOn(s[1..], d);
      [[s[0]] + rest[0]] + rest[1..]
  }

  /** The inverse of SplitOn: the pieces written out with `d` between them. */
  function JoinWith(pieces: seq<string>, d: char): string
    requires |pieces| >= 1
  {
    if |pieces| == 1 then pieces[0] else pieces[0] + [d] + JoinWith(pieces[1..], d)
  }

  /** Java's final step of `split` with limit 0. */
  function DropTrailingEmpty(xs: seq<string>): (r: seq<string>)
    ensures |r| <= |xs| && r == xs[..|r|]
    ensures |r| > 0 ==> r[|r| - 1] != ""
    ensures forall i :: |r| <= i < |xs| ==> xs[i] == ""
  {
    if |xs| > 0 && xs[|xs| - 1] == "" then DropTrailingEmpty(xs[..|xs| - 1]) else xs
  }

  /**
   * `s.split(d)`: no match returns the string itself; otherwise the pieces
   * hold no delimiter, the last one is not empty, and written back with `d`
   * between them they give the start of `s`, after which `s` holds only
   * delimiters; nothing is returned exactly when `s` is all delimiters.
   */
  function JavaSplit(s: string, d: char): (r: seq<string>)
    ensures d !in s ==> r == [s]
    ensures d in s ==> forall i :: 0 <= i < |r| ==> d !in r[i]
    ensures d in s && |r| > 0 ==> r[|r| - 1] != "" && JoinWith(r, d) <= s
    ensures d in s && |r| > 0 ==> forall i :: |JoinWith(r, d)| <= i < |s| ==> s[i] == d
    ensures d in s ==> (r == [] <==> forall i :: 0 <= i < |s| ==> s[i] == d)
  {
    if d !in s then [s]
    else
      TrimmedPieces(s, d);
      TrimmedTail(s, d);
      DropTrailingEmpty(SplitOn(s, d))
  }

  /** Splitting a string that ends in the delimiter leaves one trailing empty piece, which is dropped. */
  lemma TrimOneEmpty(xs: seq<string>)
    requires |xs| > 0 && xs[|xs| - 1] != ""
    ensures DropTrailingEmpty(xs + [""]) == xs
  {
    assert (xs + [""])[..|xs|] == xs;
  }

  /** Four pieces joined: the pieces with a delimiter between each pair. */
  lemma JoinFour(p: seq<string>, d: char)
    requires |p| == 4
    ensures JoinWith(p, d) == p[0] + [d] + p[1] + [d] + p[2] + [d] + p[3]
  {
    assert JoinWith(p[3..], d) == p[3];
    assert JoinWith(p[2..], d) == p[2] + [d] + p[3];
    assert JoinWith(p[1..], d) == p[1] + [d] + (p[2] + [d] + p[3]);
  }

  /** Joining pieces whose characters all satisfy `ok`, with a delimiter that does, keeps to `ok`. */
  lemma {:induction false} JoinWithin(pieces: seq<string>, d: char, ok: char -> bool)
    requires |pieces| >= 1 && ok(d)
    requires forall i, c :: 0 <= i < |pieces| && c in pieces[i] ==> ok(c)
    ensures forall c :: c in JoinWith(pieces, d) ==> ok(c)
    decreases |pieces|
  {
    if |pieces| > 1 {
      JoinWithin(pieces[1..], d, ok);
      assert forall c :: c in pieces[0] ==> ok(c);
    }
  }

  /** Joining the first n pieces gives a prefix of joining them all. */
  lemma {:induction false} JoinPrefix(pieces: seq<string>, n: nat, d: char)
    requires 1 <= n <= |pieces|
    ensures JoinWith(pieces[..n], d) <= JoinWith(pieces, d)
    decreases |pieces|
  {
    if n == |pieces| {
      assert pieces[..n] == pieces;
    } else if n > 1 {
      var head := pieces[..n];
      assert head[1..] == pieces[1..][..n - 1];
      JoinPrefix(pieces[1..], n - 1, d);
      var rest, all := JoinWith(head[1..], d), JoinWith(pieces[1..], d);
      assert all[..|rest|] == rest;
      assert JoinWith(head, d) == pieces[0] + [d] + rest;
      assert JoinWith(pieces, d) == pieces[0] + [d] + all;
    }
  }

  /** The trimmed pieces of a split: delimiter-free, and a prefix of the string once joined. */
  lemma TrimmedPieces(s: string, d: char)
    ensures var r := DropTrailingEmpty(SplitOn(s, d));
      && (forall i :: 0 <= i < |r| ==> d !in r[i])
      && (|r| > 0 ==> JoinWith(r, d) <= s)
  {
    var pieces := SplitOn(s, d);
    var r := DropTrailingEmpty(pieces);
    JoinSplit(s, d);
    forall i | 0 <= i < |r| ensures d !in r[i] {
      assert r[i] == pieces[i];
    }
    if |r| > 0 {
      JoinPrefix(pieces, |r|, d);
    }
  }

  /** One more, empty, piece written back adds just one delimiter at the end. */
  lemma {:induction false} JoinAppendEmpty(xs: seq<string>, d: char)
    requires |xs| >= 1
    ensures JoinWith(xs + [""], d) == JoinWith(xs, d) + [d]
    decreases |xs|
  {
    if |xs| > 1 {
      assert (xs + [""])[1..] == xs[1..] + [""];
      JoinAppendEmpty(xs[1..], d);
    } else {
      assert (xs + [""])[1..] == [""];
    }
  }

  /** Empty pieces after the first n add only delimiters to the joined text. */
  lemma {:induction false} JoinEmptyTail(pieces: seq<string>, n: nat, d: char)
    requires 1 <= n <= |pieces|
    requires forall i :: n <= i < |pieces| ==> pieces[i] == ""
    ensures |JoinWith(pieces[..n], d)| <= |JoinWith(pieces, d)|
    ensures forall i :: |JoinWith(pieces[..n], d)| <= i < |JoinWith(pieces, d)| ==> JoinWith(pieces, d)[i] == d
    decreases |pieces|
  {
    if n == |pieces| {
      assert pieces[..n] == pieces;
    } else {
      var front := pieces[..|pieces| - 1];
      assert pieces == front + [""];
      assert front[..n] == pieces[..n];
      JoinEmptyTail(front, n, d);
      JoinAppendEmpty(front, d);
    }
  }

  /** A string made of delimiters only splits into empty pieces. */
  lemma {:induction false} SplitDelimitersOnly(s: string, d: char)
    requires forall i :: 0 <= i < |s| ==> s[i] == d
    ensures forall i :: 0 <= i < |SplitOn(s, d)| ==> SplitOn(s, d)[i] == ""
    decreases |s|
  {
    if |s| > 0 {
      SplitDelimitersOnly(s[1..], d);
      assert SplitOn(s, d) == [""] + SplitOn(s[1..], d);
    }
  }

  /**
   * What trimming the split drops: only delimiters follow the kept pieces,
   * and nothing is kept exactly when the string is all delimiters.
   */
  lemma TrimmedTail(s: string, d: char)
    ensures var r := DropTrailingEmpty(SplitOn(s, d));
      && (|r| > 0 ==> forall i :: |JoinWith(r, d)| <= i < |s| ==> s[i] == d)
      && (r == [] <==> forall i :: 0 <= i < |s| ==> s[i] == d)
  {
    var pieces := SplitOn(s, d);
    var r := DropTrailingEmpty(pieces);
    JoinSplit(s, d);
    if |r| > 0 {
      JoinEmptyTail(pieces, |r|, d);
    } else {
      JoinWithin(pieces, d, c => c == d);
      forall i | 0 <= i < |s| ensures s[i] == d {
        assert s[i] in s;
      }
    }
    if forall i :: 0 <= i < |s| ==> s[i] == d {
      SplitDelimitersOnly(s, d);
    }
  }

  lemma {:induction false} SplitNoDelimiter(p: string, d: char)
    requires d !in p
    ensures SplitOn(p, d) == [p]
    decreases |p|
  {
    if |p| > 0 {
      SplitNoDelimiter(p[1..], d);
      assert p[0] != d;
      assert [p[0]] + p[1..] == p;
    }
  }

  /** A delimiter-free prefix followed by the delimiter is exactly the first piece. */
  lemma {:induction false} SplitAfterPiece(p: string, rest: string, d: char)
    requires d !in p
    ensures SplitOn(p + [d] + rest, d) == [p] + SplitOn(rest, d)
    decreases |p|
  {
    var s := p + [d] + rest;
    if |p| == 0 {
      assert s[0] == d && s[1..] == rest;
    } else {
      assert s[0] == p[0] && s[1..] == p[1..] + [d] + rest;
      SplitAfterPiece(p[1..], rest, d);
      assert [p[0]] + p[1..] == p;
    }
  }

  /** Splitting then joining gives back the string, and no piece holds the delimiter. */
  lemma {:induction false} JoinSplit(s: string, d: char)
    ensures JoinWith(SplitOn(s, d), d) == s
    ensures forall i :: 0 <= i < |SplitOn(s, d)| ==> d !in SplitOn(s, d)[i]
    decreases |s|
  {
    if |s| > 0 {
      JoinSplit(s[1..], d);
      var rest := SplitOn(s[1..], d);
      if s[0] == d {
        assert SplitOn(s, d)[1..] == rest;
      } else {
        var r := SplitOn(s, d);
        assert r[0] == [s[0]] + rest[0];
        assert d !in rest[0];
        if |rest| == 1 {
          assert JoinWith(r, d) == [s[0]] + rest[0];
        } else {
          assert r[1..] == rest[1..];
          assert JoinWith(rest, d) == rest[0] + [d] + JoinWith(rest[1..], d);
        }
        assert [s[0]] + s[1..] == s;
        forall i | 0 <= i < |r| ensures d !in r[i] {
          if i > 0 { assert r[i] == rest[i]; }
        }
      }
    }
  }

  /** Joining pieces free of the delimiter and splitting again gives back the pieces. */
  lemma {:induction false} SplitJoin(pieces: seq<string>, d: char)
    requires |pieces| >= 1
    requires forall i :: 0 <= i < |pieces| ==> d !in pieces[i]
    ensures SplitOn(JoinWith(pieces, d), d) == pieces
    decreases |pieces|
  {
    if |pieces| == 1 {
      SplitNoDelimiter(pieces[0], d);
    } else {
      SplitJoin(pieces[1..], d);
      SplitAfterPiece(pieces[0], JoinWith(pieces[1..], d), d);
      assert [pieces[0]] + pieces[1..] == pieces;
    }
  }
}

=== FILE: wrappers.dfy ===
/** Small helper datatypes shared by the model. */
module Wrappers {
  /** Java's nullable reference: `None` plays the part of `null`. */
  datatype Option<+T> = None | Some(value: T)
}
